=== FILE: README.md ===
# Gateway request admission, modelled in Dafny

This project models the request-admission filters of a Spring Cloud Gateway
service. It covers three global filters:

- `AuthenticationFilter` lets `/auth/**` through. Every other request needs a
  valid `Authorization: Bearer <token>`. A missing, blank or rejected token gets
  a bare 401. A valid token has its claims written into `X-User-Id` and
  `X-User-Role`.
- `AdminAuthorizationFilter` fails with a `GatewayException(FORBIDDEN)` on
  `/admin/**` and `/backoffice/**` unless `X-User-Role` maps to `MASTER`.
- `ExceptionHandlingFilter` wraps the rest of the chain. It turns an error into
  a JSON envelope of status, message, method and path, unless the response is
  already committed.

It also models the error kinds (`GatewayExceptionType`, `GatewayException`) and
the chain that runs the filters.

Everything is a pure function over immutable values:

- `Http` defines case-insensitive, multi-valued headers, the request, the
  shared response (status, headers, body, committed flag) and the exchange.
- `FilterOutcome` defines how a filter ends. It either continues with a
  (possibly mutated) exchange, or ends the chain with a terminal signal
  (`Completed` or `Errored(throwable)`) and the state of the shared response.
- Each filter is a function to such a decision. The exception handler is a
  function of the downstream outcome.
- `FilterChain.Run` runs an explicit, ordered list of filters and hands the
  result to a routing collaborator. `FilterChain.ExchangeAt` gives the exchange
  each position in that list receives.

The collaborators are parameters (`FilterChain.Env`):

- token validation at the current time, which may throw;
- claim decoding, which may throw;
- `UserRole.of`, uninterpreted except for a distinguished `MASTER`;
- JSON serialisation, which may fail;
- routing.

Filter order is also a parameter. `ExceptionHandlingFilter` declares -1 and
`AdminAuthorizationFilter` declares 2. `AuthenticationFilter` declares no order,
so the rank the framework gives it is left open (`unorderedRank`). Two results
depend on that choice:

- `FilterChain.AdminReadsTokenRole`: when authentication runs first, the admin
  check reads the token's role.
- `FilterChain.OrderDecidesWhichRoleIsChecked`: when the admin check runs first,
  a client-supplied `X-User-Role: MASTER` lets through a token without that role.

Behaviours of the code worth knowing:

- A missing, blank or invalid token gets a bare 401 with no JSON envelope. The
  filter writes the status and completes the response itself. It raises no
  `GatewayException`, and `INVALID_ACCESS_TOKEN` is never raised.
- For an unclassified error, the envelope carries the throwable's own message,
  not a generic one.
- A token with no expiration claim does not count as invalid. In
  `JwtProvider.validateAccessToken`, `getExpiration()` returns null and the
  dereference throws. So the validator oracle may fail, and the model turns that
  failure into an error signal, which becomes a 500 envelope
  (`FilterChain.CanonicalTokenFailure`).
- There is no remote identity lookup in any filter, so nothing raises the 503
  kind.
- Filter order is not fixed by the code. See above.

## Model

| member | source | states |
|---|---|---|
| `PathPattern.MatchElementsIsSegmentPrefix` | src/main/java/com/dayaeyak/gateway/filter/AuthenticationFilter.java:65-68 | Segment-by-segment matching of `/lits/**` holds exactly when the path is `/lits` or starts with `/lits/`. |
| `PathPattern.AnyMatch` | src/main/java/com/dayaeyak/gateway/filter/AdminAuthorizationFilter.java:52-55 | A path matches a pattern list iff some pattern in the list matches it. |
| `AuthenticationFilter.WhiteListedIff` | src/main/java/com/dayaeyak/gateway/filter/AuthenticationFilter.java:30-32 | A path is white-listed iff it is `/auth` or starts with `/auth/`, so `/authx` is not. |
| `AuthenticationFilter.ExtractToken` | src/main/java/com/dayaeyak/gateway/filter/AuthenticationFilter.java:70-78 | A token exists iff the first Authorization value is non-null and starts with `Bearer `. That value is then `Bearer ` followed by the token. |
| `AuthenticationFilter.ExtractTokenRoundTrip` | src/main/java/com/dayaeyak/gateway/filter/AuthenticationFilter.java:73-75 | The header `Bearer t` yields exactly `t`. |
| `AuthenticationFilter.LowerCaseSchemeYieldsNoToken` | src/main/java/com/dayaeyak/gateway/filter/AuthenticationFilter.java:73 | The prefix check is case-sensitive: `bearer t` yields no token. |
| `AuthenticationFilter.ContainsText` | src/main/java/com/dayaeyak/gateway/filter/AuthenticationFilter.java:45 | A string has text iff some character is not Java whitespace. |
| `AuthenticationFilter.Filter` | src/main/java/com/dayaeyak/gateway/filter/AuthenticationFilter.java:34-63 | A white-listed exchange is forwarded unchanged, whatever the token oracles say. A token without text, or one the validator rejects, gets a completed 401 with headers and body untouched and no error signal. A validator or claim decoder that throws ends the chain with that exception as an error signal, the response untouched. On a protected path the filter forwards iff the token has text, validates and decodes. The forwarded request keeps path, method, response and every other header. Its identity headers hold exactly the decoded claims. |
| `AuthenticationFilter.WithIdentityKeepsToken` | src/main/java/com/dayaeyak/gateway/filter/AuthenticationFilter.java:56-59 | Setting the identity headers leaves the Authorization header, and so the token, unchanged. |
| `AuthenticationFilter.ForwardedCarriesTokenIdentity` | src/main/java/com/dayaeyak/gateway/filter/AuthenticationFilter.java:51-62 | A request forwarded from a protected path carries its own token's user id and role as its identity headers. |
| `AuthenticationFilter.ReauthenticationKeepsIdentity` | src/main/java/com/dayaeyak/gateway/filter/AuthenticationFilter.java:43-62 | Authenticating an already authenticated request forwards it, still carrying the token's identity. |
| `AuthenticationFilter.ClientIdentityHeadersIgnored` | src/main/java/com/dayaeyak/gateway/filter/AuthenticationFilter.java:56-59 | Identity headers are set, not added. Two requests that differ only in client-supplied `X-User-Id`/`X-User-Role` are forwarded with identical headers. |
| `AdminAuthorizationFilter.AdminOnlyPathIff` | src/main/java/com/dayaeyak/gateway/filter/AdminAuthorizationFilter.java:24-27 | A path is admin-only iff it is `/admin` or `/backoffice`, or starts with `/admin/` or `/backoffice/`. |
| `AdminAuthorizationFilter.Forbidden` | src/main/java/com/dayaeyak/gateway/filter/AdminAuthorizationFilter.java:44-47 | The refusal is an error signal carrying the FORBIDDEN kind: its status names that kind, and both its message and the superclass message are the kind's message. It is not a write: the response stays as it was. |
| `AdminAuthorizationFilter.Filter` | src/main/java/com/dayaeyak/gateway/filter/AdminAuthorizationFilter.java:29-50 | The filter never mutates the exchange: it forwards it as is or fails. It forwards iff the path is not admin-only, or the first `X-User-Role` is non-null and `UserRole.of` maps it to MASTER. On an admin-only path, an absent or null role or another constant fails with FORBIDDEN; a name `UserRole.of` throws on fails with that exception instead. |
| `AdminAuthorizationFilter.DecisionDependsOnPathAndRole` | src/main/java/com/dayaeyak/gateway/filter/AdminAuthorizationFilter.java:38-47 | Two exchanges with the same path and the same first role value get the same decision and, when refused, the same error. |
| `ExceptionHandlingFilter.BuildExceptionResponse` | src/main/java/com/dayaeyak/gateway/filter/ExceptionHandlingFilter.java:60-76 | The envelope's method and path are the request's. Its message is the throwable's message. Its status is the exception's status for a GatewayException and 500 otherwise. |
| `ExceptionHandlingFilter.EnvelopeStatusIdentifiesKind` | src/main/java/com/dayaeyak/gateway/filter/ExceptionHandlingFilter.java:61-75 | A client can recover the error kind from the envelope status. An unclassified error maps to no kind. |
| `ExceptionHandlingFilter.WriteErrorResponse` | src/main/java/com/dayaeyak/gateway/filter/ExceptionHandlingFilter.java:78-89 | The response always completes and is committed, with no error signal. The body is the JSON when serialisation succeeds. When it fails, nothing is written. |
| `ExceptionHandlingFilter.HandlingError` | src/main/java/com/dayaeyak/gateway/filter/ExceptionHandlingFilter.java:37-58 | Over a committed response, the original throwable is re-raised and the response is untouched. Otherwise the status becomes the envelope's and `application/json` is appended to Content-Type. Other headers are unchanged and the envelope is written. |
| `ExceptionHandlingFilter.Filter` | src/main/java/com/dayaeyak/gateway/filter/ExceptionHandlingFilter.java:31-35 | A completed downstream passes through untouched. Every error is handed to `HandlingError`: over an uncommitted response the result is completed and committed, carries the envelope's status (the exception's own, or 500), and has the JSON envelope written. An error only ever leaves the filter as the unchanged downstream outcome. |
| `ExceptionHandlingFilter.FilterIdempotent` | src/main/java/com/dayaeyak/gateway/filter/ExceptionHandlingFilter.java:31-48 | Applying the handler to its own result changes nothing. |
| `GatewayExceptions.ExactlyThreeTypes` | src/main/java/com/dayaeyak/gateway/exception/GatewayExceptionType.java:9-15 | There are exactly three error kinds. |
| `GatewayExceptions.TypeOfStatus` | src/main/java/com/dayaeyak/gateway/exception/GatewayExceptionType.java:11-14 | Inverse of the status table: 401 gives INVALID_ACCESS_TOKEN, 403 gives FORBIDDEN, 503 gives USER_SERVICE_UNAVAILABLE. Any other status gives no kind. |
| `GatewayExceptions.StatusDeterminesType` | src/main/java/com/dayaeyak/gateway/exception/GatewayExceptionType.java:11-14 | A status names a kind iff it is that kind's status, so the three statuses are pairwise distinct. |
| `GatewayExceptions.NewGatewayException` | src/main/java/com/dayaeyak/gateway/exception/GatewayException.java:12-17 | The exception's status identifies the kind it was built from. Its message is the kind's message, and the superclass message agrees with it. |
| `GatewayExceptions.ConstructedStatuses` | src/main/java/com/dayaeyak/gateway/exception/GatewayException.java:12-17 | Every exception built by the one constructor has status 401, 403 or 503. |
| `HeaderConstraints.NamesAreDistinct` | src/main/java/com/dayaeyak/gateway/constraints/HeaderConstraints.java:5-11 | Authorization, X-User-Id, X-User-Role and Content-Type are distinct headers, even compared case-insensitively. |
| `Http.GetFirst` | src/main/java/com/dayaeyak/gateway/filter/AdminAuthorizationFilter.java:42 | The first value of a header, looked up case-insensitively. It is None when the header is absent or that value is null. |
| `Http.SetHeader` | src/main/java/com/dayaeyak/gateway/filter/AuthenticationFilter.java:57-58 | After `set`, the header has exactly the one given value and no other header changes. The only header name that can be new is the folded one. |
| `Http.AddHeader` | src/main/java/com/dayaeyak/gateway/filter/ExceptionHandlingFilter.java:55 | After `add`, the value follows the existing ones and no other header changes. The only header name that can be new is the folded one. |
| `Http.SetStatusCode` | src/main/java/com/dayaeyak/gateway/filter/AuthenticationFilter.java:47 | The status changes only on an uncommitted response. Nothing else changes. |
| `Http.SetComplete` | src/main/java/com/dayaeyak/gateway/filter/AuthenticationFilter.java:48 | Completing commits the response without changing its status, headers or body. |
| `FilterChain.HandlerPrecedesAdmin` | src/main/java/com/dayaeyak/gateway/filter/ExceptionHandlingFilter.java:91-94 | In any chain sorted by declared order, the exception handler (-1) comes before the admin check (2). |
| `FilterChain.AuthenticationVersusAdmin` | src/main/java/com/dayaeyak/gateway/filter/AuthenticationFilter.java:25 | With no declared order, authentication precedes the admin check when the framework ranks it below 2. Ranked above 2, it follows the check. At 2 the tie is left open. |
| `FilterChain.Enter` | src/main/java/com/dayaeyak/gateway/filter/AuthenticationFilter.java:53-62 | A filter that lets the request go on keeps its path, method, shared response, Authorization header and every header other than `X-User-Id` and `X-User-Role`. |
| `FilterChain.ExchangeAtKeepsRequestLine` | src/main/java/com/dayaeyak/gateway/filter/AuthenticationFilter.java:53-62 | Every position in the chain, routing included, sees the original path, method, response and Authorization header. |
| `FilterChain.IdentityPersists` | src/main/java/com/dayaeyak/gateway/filter/AuthenticationFilter.java:51-62 | Once a request carries its token's identity, every later position sees it still carrying it. |
| `FilterChain.AuthenticatedDownstream` | src/main/java/com/dayaeyak/gateway/filter/AuthenticationFilter.java:51-62 | On a protected path, every position after authentication, routing included, receives the identity headers set from the token. |
| `FilterChain.AdminReadsTokenRole` | src/main/java/com/dayaeyak/gateway/filter/AdminAuthorizationFilter.java:42 | When authentication precedes the admin check on a protected path, a request that reaches the check has a valid token, and the user id and role it carries are exactly that token's claims. So the role the check reads is the token's role claim. |
| `FilterChain.RunRoutesReached` | src/main/java/com/dayaeyak/gateway/filter/AuthenticationFilter.java:53-62 | Without the handler in the chain, a request every filter lets through is answered by routing the exchange the last filter passed on. |
| `FilterChain.DeniedNeverRouted` | src/main/java/com/dayaeyak/gateway/filter/AuthenticationFilter.java:45-49 | When a filter ends the chain, the outcome does not depend on the routing collaborator. |
| `FilterChain.ExemptIsNotPrivileged` | src/main/java/com/dayaeyak/gateway/filter/AdminAuthorizationFilter.java:24-27 | No path is both white-listed and admin-only. |
| `FilterChain.OrderDecidesWhichRoleIsChecked` | src/main/java/com/dayaeyak/gateway/filter/AdminAuthorizationFilter.java:57-60 | A client header claiming MASTER, with a valid non-MASTER token on an admin path, is refused when authentication runs first. It is let through when the admin check runs first. |
| `FilterChain.CanonicalChainSorted` | src/main/java/com/dayaeyak/gateway/filter/ExceptionHandlingFilter.java:91-94 | Handler, then authentication, then admin check is a sorted order for any undeclared rank from -1 to 2. |
| `FilterChain.CanonicalChainUnique` | src/main/java/com/dayaeyak/gateway/filter/AuthenticationFilter.java:25 | For undeclared ranks 0 and 1, handler, authentication, admin check is the only sorted arrangement of the three filters. |
| `FilterChain.TieAtAdminOrder` | src/main/java/com/dayaeyak/gateway/filter/AdminAuthorizationFilter.java:57-60 | At undeclared rank 2, both the canonical chain and the one running the admin check before authentication are sorted. |
| `FilterChain.CanonicalForwardsWhiteListed` | src/main/java/com/dayaeyak/gateway/filter/AuthenticationFilter.java:39-41 | In that chain a white-listed request reaches routing exactly as it came. |
| `FilterChain.CanonicalRejectsBadToken` | src/main/java/com/dayaeyak/gateway/filter/AuthenticationFilter.java:45-49 | In that chain a missing, blank or rejected token ends in the bare 401. The handler adds no envelope. |
| `FilterChain.CanonicalTokenFailure` | src/main/java/com/dayaeyak/gateway/filter/AuthenticationFilter.java:45-51 | In that chain a validator or claim decoder that throws ends in the handler's envelope for that exception: over an uncommitted response, a 500 carrying the exception's message. |
| `FilterChain.CanonicalForbidsNonMaster` | src/main/java/com/dayaeyak/gateway/filter/AdminAuthorizationFilter.java:44-47 | In that chain a valid non-MASTER token on an admin path gets the handler's FORBIDDEN envelope. |
| `FilterChain.CanonicalForwardsAuthenticated` | src/main/java/com/dayaeyak/gateway/filter/AuthenticationFilter.java:53-62 | In that chain a valid token allowed on the path is routed with the identity headers set from its claims. |

## Left out

- JWT signature checking, parsing and the wall clock (`JwtProvider`) are not
  modelled. They are the oracles `validate(token, now)` and `userInfo(token)`.
  Either may fail, as the Java methods may throw.
- Remote identity lookup (`UserWebClient`) is left out. No shown filter calls
  it, so no timeout, cancellation or 503 path is modelled.
- Logging (`LogUtil`, `ExceptionResponseDto.toString`) is left out. It has no
  effect on the outcome.
- The Reactor `Mono` plumbing becomes the `Decision`/`Outcome` values.
  Concurrency, cancellation and asynchronous completion are not modelled.
- `ObjectMapper` becomes an uninterpreted `Serialiser` that may fail.
- The envelope body is kept as the JSON string. Its UTF-8 encoding into a
  `DataBuffer` is not modelled.
- `UserRole.of` is uninterpreted, because the enum is not part of this model.
  It returns a constant or fails, as it may throw on a name it does not know.
  The model only tells MASTER apart from every other constant.
- `AdminAuthorizationFilter.Filter` takes an exception thrown by `UserRole.of`
  to be an ordinary runtime exception, not a `GatewayException`. The model keeps
  only its message, so the handler answers it with a 500 envelope.
- `Http.SetHeader` stores `[null]` when `set` is given a null value (a token
  without a user id or role claim). What `HttpHeaders.set(name, null)` does is
  up to the header store behind the mutated request, which is not part of this
  model. Storing a null or removing the header both make `getFirst` return
  null, so the client's own value is gone either way. A store that ignored a
  null `set` would keep a client-supplied `X-User-Role`. The model assumes the
  client's values are replaced, and `FilterChain.AdminReadsTokenRole` and
  `FilterChain.CanonicalForbidsNonMaster` rely on that when the role claim is
  missing.
- `RequestUserInfo` and `RequestUserInfoDto` become one `UserInfo` pair. Either
  claim may be null.
- `PathPattern.MatchElementsIsSegmentPrefix` covers only literal segments
  followed by `/**`. It compares raw segments, while Spring matches decoded
  segment values with matrix parameters (`;...`) removed. So a path like
  `/admin;x=1/users` matches in Spring but not in the model.
- `Http.GetFirst` folds header names with ASCII lower-casing. Spring folds them
  with full English-locale lower-casing. The two differ only outside ASCII,
  which header names do not use.
- The envelope status is kept as the numeric code. Jackson would write the
  `HttpStatus` constant's name.
- The order the framework gives a filter without `Ordered` is not modelled. It
  stays the parameter `unorderedRank`, and chains are explicit lists.

=== FILE: admin_authorization_filter.dfy ===
/**
 * AdminAuthorizationFilter: on admin-only paths, lets the request through only
 * when its X-User-Role header maps to MASTER; otherwise fails with FORBIDDEN.
 */
module AdminAuthorizationFilter {
  import opened Wrappers
  import opened Http
  import opened HeaderConstraints
  import PathPattern
  import opened GatewayExceptions
  import opened FilterOutcome

  const ORDER: int := 2

  /** The admin-only patterns: "/admin" and "/backoffice", each followed by a "**" segment. */
  const ADMIN_ONLY_PATH_LIST: seq<PathPattern.RestPattern> :=
    [PathPattern.RestPattern(["admin"]), PathPattern.RestPattern(["backoffice"])]

  /**
   * UserRole as far as this filter can tell: MASTER, or any other constant
   * UserRole.of may return.
   */
  datatype UserRole = MASTER | OtherRole(name: string)

  /**
   * UserRole.of, left uninterpreted: the constant a role name denotes, or the
   * message of the (non-gateway) exception it throws for a name it does not know.
   */
  type RoleOf = string -> Result<UserRole, Option<string>>

  function IsAdminOnlyPath(path: string): bool
  {
    PathPattern.AnyMatch(ADMIN_ONLY_PATH_LIST, path)
  }

  /** A path is admin-only exactly when it is at or below "/admin" or "/backoffice". */
  lemma AdminOnlyPathIff(path: string)
    ensures IsAdminOnlyPath(path) <==>
      (path == "/admin" || "/admin/" <= path || path == "/backoffice" || "/backoffice/" <= path)
  {
    var admin := PathPattern.RestPattern(["admin"]);
    var backoffice := PathPattern.RestPattern(["backoffice"]);
    assert IsAdminOnlyPath(path) <==> PathPattern.Matches(admin, path) || PathPattern.Matches(backoffice, path) by {
      assert ADMIN_ONLY_PATH_LIST[1..] == [backoffice];
      assert PathPattern.AnyMatch([backoffice], path) == PathPattern.Matches(backoffice, path);
    }
    PathPattern.SingleSegment("admin", path);
    assert "/" + "admin" == "/admin" && "/" + "admin" + "/" == "/admin/";
    PathPattern.SingleSegment("backoffice", path);
    assert "/" + "backoffice" == "/backoffice" && "/" + "backoffice" + "/" == "/backoffice/";
  }

  /** The FORBIDDEN failure: raised as an error, the response left as it was. */
  function Forbidden(response: Response): (outcome: Outcome)
    ensures outcome.signal.Errored? && outcome.signal.error.Gateway?
    ensures TypeOfStatus(outcome.signal.error.exception.status) == Some(GatewayExceptionType.FORBIDDEN)
    ensures outcome.signal.error.exception.message == GatewayExceptionType.FORBIDDEN.Message()
         == outcome.signal.error.exception.detailMessage
    ensures outcome.response == response
  {
    Outcome(Errored(Gateway(NewGatewayException(GatewayExceptionType.FORBIDDEN))), response)
  }

  /** Whether the request's role header maps to MASTER; an absent or null header does not. */
  predicate HasMasterRole(request: Request, roleOf: RoleOf)
  {
    var role := GetFirst(request.headers, USER_ROLE_HEADER);
    role.Some? && roleOf(role.value) == Success(MASTER)
  }

  function Filter(exchange: Exchange, roleOf: RoleOf): (d: Decision)
    // it never mutates the request or the response: forward as is, or fail
    ensures d.Continue? ==> d.exchange == exchange
    ensures d.Continue? <==> !IsAdminOnlyPath(exchange.request.path) || HasMasterRole(exchange.request, roleOf)
    // an absent or null role, or one naming another constant: FORBIDDEN
    ensures IsAdminOnlyPath(exchange.request.path) &&
            (var role := GetFirst(exchange.request.headers, USER_ROLE_HEADER);
             role.None? || (roleOf(role.value).Success? && roleOf(role.value).value != MASTER)) ==>
      d == Done(Forbidden(exchange.response))
    // a role name UserRole.of rejects: its exception travels downstream instead
    ensures IsAdminOnlyPath(exchange.request.path) &&
            (var role := GetFirst(exchange.request.headers, USER_ROLE_HEADER);
             role.Some? && roleOf(role.value).Failure?) ==>
      d == Done(Outcome(Errored(Unclassified(roleOf(GetFirst(exchange.request.headers, USER_ROLE_HEADER).value).error)),
                        exchange.response))
  {
    var request := exchange.request;
    if !IsAdminOnlyPath(request.path) then
      Continue(exchange)
    else
      var role := GetFirst(request.headers, USER_ROLE_HEADER);
      if role.None? then
        Done(Forbidden(exchange.response))
      else
        match roleOf(role.value)
        case Failure(thrown) => Done(Outcome(Errored(Unclassified(thrown)), exchange.response))
        case Success(r) => if r != MASTER then Done(Forbidden(exchange.response)) else Continue(exchange)
  }

  /** The decision reads nothing but the path and the first X-User-Role value. */
  lemma DecisionDependsOnPathAndRole(e1: Exchange, e2: Exchange, roleOf: RoleOf)
    requires e1.request.path == e2.request.path
    requires GetFirst(e1.request.headers, USER_ROLE_HEADER) == GetFirst(e2.request.headers, USER_ROLE_HEADER)
    ensures Filter(e1, roleOf).Continue? == Filter(e2, roleOf).Continue?
    ensures Filter(e1, roleOf).Done? ==> Filter(e1, roleOf).outcome.signal == Filter(e2, roleOf).outcome.signal
  {
  }
}

=== FILE: authentication_filter.dfy ===
/**
 * AuthenticationFilter: lets white-listed paths through, otherwise demands a
 * valid bearer token and replaces the identity headers with the token's claims.
 */
module AuthenticationFilter {
  import opened Wrappers
  import opened Http
  import opened HeaderConstraints
  import HttpStatus
  import PathPattern
  import opened GatewayExceptions
  import opened FilterOutcome

  /** The identity read from a token's claims; either claim may be absent (null). */
  datatype UserInfo = UserInfo(userId: Option<string>, role: Option<string>)

  /**
   * The token collaborator. `validate(token, now)` is Success(b) when the validity
   * check returns b at time `now`, and Failure(message) when it throws;
   * `userInfo(token)` decodes the claims, or throws.
   */
  datatype JwtProvider = JwtProvider(
    now: int,
    validate: (string, int) -> Result<bool, Option<string>>,
    userInfo: string -> Result<UserInfo, Option<string>>)

  /** The white list: the single pattern "/auth" followed by a "**" segment. */
  const WHITE_LIST: seq<PathPattern.RestPattern> := [PathPattern.RestPattern(["auth"])]

  function IsWhiteListed(path: string): bool
  {
    PathPattern.AnyMatch(WHITE_LIST, path)
  }

  /** A path is white-listed exactly when it is "/auth" or lies below "/auth/". */
  lemma WhiteListedIff(path: string)
    ensures IsWhiteListed(path) <==> (path == "/auth" || "/auth/" <= path)
  {
    PathPattern.SingleSegment("auth", path);
  }

  /**
   * The token after the "Bearer " prefix of the first Authorization value; None
   * when that value is absent, null or does not start with the prefix.
   */
  function ExtractToken(request: Request): (token: Option<string>)
    ensures token.Some? <==>
      (GetFirst(request.headers, AUTHORIZATION_HEADER).Some?
       && BEARER_PREFIX <= GetFirst(request.headers, AUTHORIZATION_HEADER).value)
    ensures token.Some? ==> GetFirst(request.headers, AUTHORIZATION_HEADER).value == BEARER_PREFIX + token.value
  {
    var authHeader := GetFirst(request.headers, AUTHORIZATION_HEADER);
    if authHeader.Some? && BEARER_PREFIX <= authHeader.value then
      assert authHeader.value == BEARER_PREFIX + authHeader.value[7..];
      Some(authHeader.value[7..])
    else
      None
  }

  /** A header "Bearer t" yields exactly t. */
  lemma ExtractTokenRoundTrip(request: Request, token: string)
    requires GetFirst(request.headers, AUTHORIZATION_HEADER) == Some(BEARER_PREFIX + token)
    ensures ExtractToken(request) == Some(token)
  {
  }

  /** The prefix is case-sensitive: a lower-case "bearer " yields no token. */
  lemma LowerCaseSchemeYieldsNoToken(request: Request, token: string)
    requires GetFirst(request.headers, AUTHORIZATION_HEADER) == Some("bearer " + token)
    ensures ExtractToken(request).None?
  {
    assert ("bearer " + token)[0] != BEARER_PREFIX[0];
  }

  /** Java's Character.isWhitespace. */
  predicate IsWhitespace(c: char)
  {
    || '\t' <= c <= '\r'
    || '\U{1C}' <= c <= '\U{1F}'
    || c == ' '
    || c == '\U{1680}'
    || '\U{2000}' <= c <= '\U{2006}'
    || '\U{2008}' <= c <= '\U{200A}'
    || c == '\U{2028}'
    || c == '\U{2029}'
    || c == '\U{205F}'
    || c == '\U{3000}'
  }

  function ContainsText(s: string): (found: bool)
    ensures found <==> exists i :: 0 <= i < |s| && !IsWhitespace(s[i])
  {
    if |s| == 0 then false
    else if !IsWhitespace(s[0]) then true
    else
      assert forall i :: 1 <= i < |s| ==> s[i] == s[1..][i - 1];
      ContainsText(s[1..])
  }

  /** StringUtils.hasText: non-null and not made only of whitespace. */
  function HasText(s: Option<string>): bool
  {
    s.Some? && ContainsText(s.value)
  }

  /** The claims of a request's bearer token, when it has text, validates and decodes. */
  function TokenClaims(request: Request, jwt: JwtProvider): Option<UserInfo>
  {
    var token := ExtractToken(request);
    if HasText(token) && jwt.validate(token.value, jwt.now) == Success(true) && jwt.userInfo(token.value).Success?
    then Some(jwt.userInfo(token.value).value)
    else None
  }

  /** The request carries, as its identity headers, the claims of its own valid token. */
  predicate CarriesTokenIdentity(request: Request, jwt: JwtProvider)
  {
    var claims := TokenClaims(request, jwt);
    && claims.Some?
    && GetFirst(request.headers, USER_ID_HEADER) == claims.value.userId
    && GetFirst(request.headers, USER_ROLE_HEADER) == claims.value.role
  }

  /** The header update of the mutated request: both identity headers are set. */
  function WithIdentity(request: Request, info: UserInfo): Request
  {
    request.(headers := SetHeader(SetHeader(request.headers, USER_ID_HEADER, info.userId), USER_ROLE_HEADER, info.role))
  }

  /**
   * `after` is `before` with the identity headers replaced by exactly the claim
   * values; path, method and every other header are unchanged.
   */
  ghost predicate IdentityInjected(before: Request, after: Request, info: UserInfo)
  {
    && after.path == before.path
    && after.httpMethod == before.httpMethod
    && Values(after.headers, USER_ID_HEADER) == [info.userId]
    && Values(after.headers, USER_ROLE_HEADER) == [info.role]
    && forall name :: Fold(name) != Fold(USER_ID_HEADER) && Fold(name) != Fold(USER_ROLE_HEADER) ==>
         Values(after.headers, name) == Values(before.headers, name)
  }

  /**
   * The 401 rejection: the status is set (unless already committed) and the
   * response completed; no header or body is written and no error is signalled.
   */
  predicate IsBareUnauthorized(before: Response, outcome: Outcome)
  {
    && outcome.signal == Completed
    && outcome.response.committed
    && outcome.response.status == (if before.committed then before.status else Some(HttpStatus.UNAUTHORIZED))
    && outcome.response.headers == before.headers
    && outcome.response.body == before.body
  }

  function Filter(exchange: Exchange, jwt: JwtProvider): (d: Decision)
    // white-listed: forwarded as it came, token and collaborator untouched
    ensures IsWhiteListed(exchange.request.path) ==> d == Continue(exchange)
    // no token with text: bare 401, whatever the validator would say
    ensures !IsWhiteListed(exchange.request.path) && !HasText(ExtractToken(exchange.request)) ==>
      d.Done? && IsBareUnauthorized(exchange.response, d.outcome)
    // a token the validator rejects: bare 401
    ensures !IsWhiteListed(exchange.request.path) && HasText(ExtractToken(exchange.request))
            && jwt.validate(ExtractToken(exchange.request).value, jwt.now) == Success(false) ==>
      d.Done? && IsBareUnauthorized(exchange.response, d.outcome)
    // a validator that throws: its exception travels downstream, the response untouched
    ensures !IsWhiteListed(exchange.request.path) && HasText(ExtractToken(exchange.request))
            && jwt.validate(ExtractToken(exchange.request).value, jwt.now).Failure? ==>
      d == Done(Outcome(Errored(Unclassified(jwt.validate(ExtractToken(exchange.request).value, jwt.now).error)),
                        exchange.response))
    // a claim decoder that throws after a valid token: the same
    ensures !IsWhiteListed(exchange.request.path) && HasText(ExtractToken(exchange.request))
            && jwt.validate(ExtractToken(exchange.request).value, jwt.now) == Success(true)
            && jwt.userInfo(ExtractToken(exchange.request).value).Failure? ==>
      d == Done(Outcome(Errored(Unclassified(jwt.userInfo(ExtractToken(exchange.request).value).error)),
                        exchange.response))
    // forwarded only with the token's claims as identity
    ensures !IsWhiteListed(exchange.request.path) ==>
      (d.Continue? <==> TokenClaims(exchange.request, jwt).Some?)
    ensures !IsWhiteListed(exchange.request.path) && d.Continue? ==>
      && d.exchange.response == exchange.response
      && IdentityInjected(exchange.request, d.exchange.request, TokenClaims(exchange.request, jwt).value)
    // whenever it ends the chain, the response is left alone or gets the bare 401
    ensures d.Done? ==> IsBareUnauthorized(exchange.response, d.outcome)
                        || (d.outcome.signal.Errored? && d.outcome.response == exchange.response)
  {
    var request := exchange.request;
    if IsWhiteListed(request.path) then
      Continue(exchange)
    else
      var token := ExtractToken(request);
      if !HasText(token) then
        Done(Outcome(Completed, SetComplete(SetStatusCode(exchange.response, HttpStatus.UNAUTHORIZED))))
      else
        match jwt.validate(token.value, jwt.now)
        case Failure(message) => Done(Outcome(Errored(Unclassified(message)), exchange.response))
        case Success(valid) =>
          if !valid then
            Done(Outcome(Completed, SetComplete(SetStatusCode(exchange.response, HttpStatus.UNAUTHORIZED))))
          else
            match jwt.userInfo(token.value)
            case Failure(message) => Done(Outcome(Errored(Unclassified(message)), exchange.response))
            case Success(info) => Continue(exchange.(request := WithIdentity(request, info)))
  }

  /** Setting the identity headers leaves the Authorization header, hence the token, alone. */
  lemma WithIdentityKeepsToken(request: Request, info: UserInfo)
    ensures ExtractToken(WithIdentity(request, info)) == ExtractToken(request)
    ensures Values(WithIdentity(request, info).headers, AUTHORIZATION_HEADER) == Values(request.headers, AUTHORIZATION_HEADER)
  {
    NamesAreDistinct();
  }

  /** A request the filter forwards from a protected path carries its token's identity. */
  lemma ForwardedCarriesTokenIdentity(exchange: Exchange, jwt: JwtProvider)
    requires !IsWhiteListed(exchange.request.path)
    requires Filter(exchange, jwt).Continue?
    ensures CarriesTokenIdentity(Filter(exchange, jwt).exchange.request, jwt)
  {
    var info := TokenClaims(exchange.request, jwt).value;
    WithIdentityKeepsToken(exchange.request, info);
    NamesAreDistinct();
  }

  /** Authenticating an already authenticated request forwards it still authenticated. */
  lemma ReauthenticationKeepsIdentity(exchange: Exchange, jwt: JwtProvider)
    requires CarriesTokenIdentity(exchange.request, jwt)
    ensures Filter(exchange, jwt).Continue?
    ensures CarriesTokenIdentity(Filter(exchange, jwt).exchange.request, jwt)
  {
    if !IsWhiteListed(exchange.request.path) {
      ForwardedCarriesTokenIdentity(exchange, jwt);
    }
  }

  /**
   * Client-supplied identity headers make no difference: two requests that differ
   * only there are forwarded with identical headers.
   */
  lemma ClientIdentityHeadersIgnored(e1: Exchange, e2: Exchange, jwt: JwtProvider)
    requires e1.request.path == e2.request.path && e1.request.httpMethod == e2.request.httpMethod
    requires forall name :: Fold(name) != Fold(USER_ID_HEADER) && Fold(name) != Fold(USER_ROLE_HEADER) ==>
               Values(e1.request.headers, name) == Values(e2.request.headers, name)
    requires !IsWhiteListed(e1.request.path)
    requires Filter(e1, jwt).Continue?
    ensures Filter(e2, jwt).Continue?
    ensures forall name :: Values(Filter(e1, jwt).exchange.request.headers, name)
                        == Values(Filter(e2, jwt).exchange.request.headers, name)
  {
    NamesAreDistinct();
    assert GetFirst(e1.request.headers, AUTHORIZATION_HEADER) == GetFirst(e2.request.headers, AUTHORIZATION_HEADER);
    assert ExtractToken(e1.request) == ExtractToken(e2.request);
    var h1 := Filter(e1, jwt).exchange.request.headers;
    var h2 := Filter(e2, jwt).exchange.request.headers;
    forall name
      ensures Values(h1, name) == Values(h2, name)
    {
      if Fold(name) == Fold(USER_ID_HEADER) {
        assert Values(h1, name) == Values(h1, USER_ID_HEADER);
        assert Values(h2, name) == Values(h2, USER_ID_HEADER);
      } else if Fold(name) == Fold(USER_ROLE_HEADER) {
        assert Values(h1, name) == Values(h1, USER_ROLE_HEADER);
        assert Values(h2, name) == Values(h2, USER_ROLE_HEADER);
      }
    }
  }
}

=== FILE: exception_handling_filter.dfy ===
/**
 * ExceptionHandlingFilter: runs the rest of the chain and turns an error it
 * signals into a JSON error envelope, unless the response is already committed.
 */
module ExceptionHandlingFilter {
  import opened Wrappers
  import opened Http
  import opened HeaderConstraints
  import HttpStatus
  import opened GatewayExceptions
  import opened FilterOutcome

  const ORDER: int := -1

  const APPLICATION_JSON_VALUE: string := "application/json"

  /** ObjectMapper.writeValueAsString, left uninterpreted; None when it throws. */
  type Serialiser = ExceptionResponseDto -> Option<string>

  /** The envelope for a throwable raised while handling `method path`. */
  function BuildExceptionResponse(httpMethod: string, path: string, throwable: Throwable): (dto: ExceptionResponseDto)
    ensures dto.httpMethod == httpMethod && dto.requestPath == path
    ensures dto.message == throwable.GetMessage()
    ensures throwable.Gateway? ==> dto.status == throwable.exception.status
    ensures throwable.Unclassified? ==> dto.status == HttpStatus.INTERNAL_SERVER_ERROR
  {
    match throwable
    case Gateway(e) => ExceptionResponseDto(e.status, Some(e.message), httpMethod, path)
    case Unclassified(message) => ExceptionResponseDto(HttpStatus.INTERNAL_SERVER_ERROR, message, httpMethod, path)
  }

  /** The envelope's status tells a client which gateway kind failed, and 500 that none did. */
  lemma EnvelopeStatusIdentifiesKind(httpMethod: string, path: string, throwable: Throwable, kind: GatewayExceptionType)
    ensures throwable == Gateway(NewGatewayException(kind)) ==>
      TypeOfStatus(BuildExceptionResponse(httpMethod, path, throwable).status) == Some(kind)
    ensures throwable.Unclassified? ==> TypeOfStatus(BuildExceptionResponse(httpMethod, path, throwable).status).None?
  {
  }

  /** Write the serialised envelope and commit; on a serialisation failure only commit. */
  function WriteErrorResponse(response: Response, dto: ExceptionResponseDto, serialise: Serialiser): (outcome: Outcome)
    ensures outcome.signal == Completed && outcome.response.committed
    ensures outcome.response.status == response.status && outcome.response.headers == response.headers
    ensures serialise(dto).Some? ==> outcome.response.body == serialise(dto)
    ensures serialise(dto).None? ==> outcome.response.body == response.body
  {
    match serialise(dto)
    case Some(json) => Outcome(Completed, response.(body := Some(json), committed := true))
    case None => Outcome(Completed, SetComplete(response))
  }

  /** The error path: re-raise over a committed response, otherwise answer with the envelope. */
  function HandlingError(request: Request, response: Response, throwable: Throwable, serialise: Serialiser): (outcome: Outcome)
    ensures response.committed ==> outcome == Outcome(Errored(throwable), response)
    ensures !response.committed ==>
      var dto := BuildExceptionResponse(request.httpMethod, request.path, throwable);
      && outcome.signal == Completed
      && outcome.response.committed
      && outcome.response.status == Some(dto.status)
      && Values(outcome.response.headers, RESPONSE_CONTENT_TYPE)
         == Values(response.headers, RESPONSE_CONTENT_TYPE) + [Some(APPLICATION_JSON_VALUE)]
      && (forall name :: Fold(name) != Fold(RESPONSE_CONTENT_TYPE) ==>
            Values(outcome.response.headers, name) == Values(response.headers, name))
      && outcome.response.body == (if serialise(dto).Some? then serialise(dto) else response.body)
  {
    if response.committed then
      Outcome(Errored(throwable), response)
    else
      var dto := BuildExceptionResponse(request.httpMethod, request.path, throwable);
      var prepared := response.(
        status := Some(dto.status),
        headers := AddHeader(response.headers, RESPONSE_CONTENT_TYPE, Some(APPLICATION_JSON_VALUE)));
      WriteErrorResponse(prepared, dto, serialise)
  }

  /**
   * The filter around the rest of the chain, given what the rest of the chain
   * did with the request this filter received.
   */
  function Filter(request: Request, downstream: Outcome, serialise: Serialiser): (outcome: Outcome)
    ensures downstream.signal == Completed ==> outcome == downstream
    ensures downstream.signal.Errored? && downstream.response.committed ==> outcome == downstream
    ensures downstream.signal.Errored? && !downstream.response.committed ==>
      outcome.signal == Completed && outcome.response.committed
    // every error goes to handlingError, which writes the envelope for it
    ensures downstream.signal.Errored? ==>
      outcome == HandlingError(request, downstream.response, downstream.signal.error, serialise)
    ensures downstream.signal.Errored? && !downstream.response.committed ==>
      outcome.response.status == Some(BuildExceptionResponse(request.httpMethod, request.path, downstream.signal.error).status)
    // an error only ever leaves it unchanged
    ensures outcome.signal.Errored? ==> outcome == downstream
  {
    match downstream.signal
    case Completed => downstream
    case Errored(throwable) => HandlingError(request, downstream.response, throwable, serialise)
  }

  /** Handling twice is handling once: the second pass has nothing left to translate. */
  lemma FilterIdempotent(request: Request, downstream: Outcome, serialise: Serialiser)
    ensures Filter(request, Filter(request, downstream, serialise), serialise) == Filter(request, downstream, serialise)
  {
  }
}

=== FILE: filter_chain.dfy ===
/**
 * The global filter chain. Which order the filters run in is a parameter:
 * two filters declare an order, AuthenticationFilter declares none, and the
 * rank the framework gives an undeclared filter is left open.
 */
module FilterChain {
  import opened Wrappers
  import opened Http
  import opened HeaderConstraints
  import opened GatewayExceptions
  import opened FilterOutcome
  import AuthenticationFilter
  import AdminAuthorizationFilter
  import ExceptionHandlingFilter

  datatype GlobalFilter = Authentication | AdminAuthorization | ExceptionHandling

  /** getOrder(), for the filters that implement Ordered. */
  function DeclaredOrder(f: GlobalFilter): Option<int>
  {
    match f
    case Authentication => None
    case AdminAuthorization => Some(AdminAuthorizationFilter.ORDER)
    case ExceptionHandling => Some(ExceptionHandlingFilter.ORDER)
  }

  /** The sort key of a filter, given the rank the framework assigns to undeclared ones. */
  function Rank(f: GlobalFilter, unorderedRank: int): int
  {
    match DeclaredOrder(f)
    case Some(order) => order
    case None => unorderedRank
  }

  predicate SortedByOrder(chain: seq<GlobalFilter>, unorderedRank: int)
  {
    forall i, j :: 0 <= i < j < |chain| ==> Rank(chain[i], unorderedRank) <= Rank(chain[j], unorderedRank)
  }

  /** In any chain sorted by order, exception handling (-1) wraps the admin check (2). */
  lemma HandlerPrecedesAdmin(chain: seq<GlobalFilter>, unorderedRank: int, i: nat, j: nat)
    requires SortedByOrder(chain, unorderedRank)
    requires i < |chain| && j < |chain|
    requires chain[i] == ExceptionHandling && chain[j] == AdminAuthorization
    ensures i < j
  {
  }

  /**
   * Whether authentication runs before the admin check is decided by the rank of
   * undeclared filters: below 2 it does, above 2 it does not; at 2 the tie leaves
   * either order sorted (see TieAtAdminOrder).
   */
  lemma AuthenticationVersusAdmin(chain: seq<GlobalFilter>, unorderedRank: int, i: nat, j: nat)
    requires SortedByOrder(chain, unorderedRank)
    requires i < |chain| && j < |chain|
    requires chain[i] == Authentication && chain[j] == AdminAuthorization
    ensures unorderedRank < AdminAuthorizationFilter.ORDER ==> i < j
    ensures unorderedRank > AdminAuthorizationFilter.ORDER ==> j < i
  {
    if j < i {
      assert Rank(chain[j], unorderedRank) <= Rank(chain[i], unorderedRank);
    } else if i < j {
      assert Rank(chain[i], unorderedRank) <= Rank(chain[j], unorderedRank);
    }
  }

  /** The collaborators the chain runs against: token, role mapping, JSON and routing. */
  datatype Env = Env(
    jwt: AuthenticationFilter.JwtProvider,
    roleOf: AdminAuthorizationFilter.RoleOf,
    serialise: ExceptionHandlingFilter.Serialiser,
    route: Exchange -> Outcome)

  /**
   * What a filter does before it calls chain.filter. Only the request's identity
   * headers can change; the response is the one the exchange shares.
   */
  function Enter(f: GlobalFilter, exchange: Exchange, env: Env): (d: Decision)
    ensures d.Continue? ==>
      && d.exchange.request.path == exchange.request.path
      && d.exchange.request.httpMethod == exchange.request.httpMethod
      && d.exchange.response == exchange.response
      && Values(d.exchange.request.headers, AUTHORIZATION_HEADER) == Values(exchange.request.headers, AUTHORIZATION_HEADER)
      && (forall name :: Fold(name) != Fold(USER_ID_HEADER) && Fold(name) != Fold(USER_ROLE_HEADER) ==>
            Values(d.exchange.request.headers, name) == Values(exchange.request.headers, name))
  {
    NamesAreDistinct();
    match f
    case Authentication => AuthenticationFilter.Filter(exchange, env.jwt)
    case AdminAuthorization => AdminAuthorizationFilter.Filter(exchange, env.roleOf)
    case ExceptionHandling => Continue(exchange)
  }

  /** The whole chain; the routing collaborator runs after the last filter. */
  function Run(chain: seq<GlobalFilter>, exchange: Exchange, env: Env): Outcome
    decreases |chain|
  {
    if |chain| == 0 then
      env.route(exchange)
    else
      match Enter(chain[0], exchange, env)
      case Done(outcome) => outcome
      case Continue(next) =>
        var downstream := Run(chain[1..], next, env);
        if chain[0] == ExceptionHandling then
          ExceptionHandlingFilter.Filter(exchange.request, downstream, env.serialise)
        else
          downstream
  }

  /**
   * The exchange that chain[j] receives (for j == |chain|, the one handed to
   * routing), or None when an earlier filter ended the chain.
   */
  function ExchangeAt(chain: seq<GlobalFilter>, exchange: Exchange, env: Env, j: nat): Option<Exchange>
    requires j <= |chain|
    decreases j
  {
    if j == 0 then
      Some(exchange)
    else
      match Enter(chain[0], exchange, env)
      case Done(_) => None
      case Continue(next) => ExchangeAt(chain[1..], next, env, j - 1)
  }

  /** Along the chain, path, method, response and the Authorization header never change. */
  lemma {:induction false} ExchangeAtKeepsRequestLine(chain: seq<GlobalFilter>, exchange: Exchange, env: Env, j: nat)
    requires j <= |chain|
    requires ExchangeAt(chain, exchange, env, j).Some?
    ensures var reached := ExchangeAt(chain, exchange, env, j).value;
      && reached.request.path == exchange.request.path
      && reached.request.httpMethod == exchange.request.httpMethod
      && reached.response == exchange.response
      && Values(reached.request.headers, AUTHORIZATION_HEADER) == Values(exchange.request.headers, AUTHORIZATION_HEADER)
    decreases j
  {
    if j > 0 {
      var next := Enter(chain[0], exchange, env).exchange;
      ExchangeAtKeepsRequestLine(chain[1..], next, env, j - 1);
    }
  }

  /** Once a request carries its token's identity, every later filter sees it still carrying it. */
  lemma {:induction false} IdentityPersists(chain: seq<GlobalFilter>, exchange: Exchange, env: Env, j: nat)
    requires j <= |chain|
    requires AuthenticationFilter.CarriesTokenIdentity(exchange.request, env.jwt)
    requires ExchangeAt(chain, exchange, env, j).Some?
    ensures AuthenticationFilter.CarriesTokenIdentity(ExchangeAt(chain, exchange, env, j).value.request, env.jwt)
    decreases j
  {
    if j > 0 {
      if chain[0] == Authentication {
        AuthenticationFilter.ReauthenticationKeepsIdentity(exchange, env.jwt);
      }
      var next := Enter(chain[0], exchange, env).exchange;
      IdentityPersists(chain[1..], next, env, j - 1);
    }
  }

  /**
   * On a protected path, every filter after authentication (and routing) sees the
   * identity headers set from the token's claims, not the ones the client sent.
   */
  lemma {:induction false} AuthenticatedDownstream(chain: seq<GlobalFilter>, exchange: Exchange, env: Env, i: nat, j: nat)
    requires i < j <= |chain|
    requires chain[i] == Authentication
    requires !AuthenticationFilter.IsWhiteListed(exchange.request.path)
    requires ExchangeAt(chain, exchange, env, j).Some?
    ensures AuthenticationFilter.CarriesTokenIdentity(ExchangeAt(chain, exchange, env, j).value.request, env.jwt)
    decreases i
  {
    var next := Enter(chain[0], exchange, env).exchange;
    if i == 0 {
      AuthenticationFilter.ForwardedCarriesTokenIdentity(exchange, env.jwt);
      IdentityPersists(chain[1..], next, env, j - 1);
    } else {
      AuthenticatedDownstream(chain[1..], next, env, i - 1, j - 1);
    }
  }

  /**
   * When authentication runs before the admin check on a protected path, the token
   * validated, and the role the admin check reads (like the user id beside it) is
   * the claim of the request's own token.
   */
  lemma AdminReadsTokenRole(chain: seq<GlobalFilter>, exchange: Exchange, env: Env, i: nat, j: nat)
    requires i < j < |chain|
    requires chain[i] == Authentication && chain[j] == AdminAuthorization
    requires !AuthenticationFilter.IsWhiteListed(exchange.request.path)
    requires ExchangeAt(chain, exchange, env, j).Some?
    ensures var reached := ExchangeAt(chain, exchange, env, j).value;
      AuthenticationFilter.TokenClaims(exchange.request, env.jwt)
      == Some(AuthenticationFilter.UserInfo(GetFirst(reached.request.headers, USER_ID_HEADER),
                                            GetFirst(reached.request.headers, USER_ROLE_HEADER)))
  {
    var reached := ExchangeAt(chain, exchange, env, j).value;
    AuthenticatedDownstream(chain, exchange, env, i, j);
    ExchangeAtKeepsRequestLine(chain, exchange, env, j);
    assert GetFirst(reached.request.headers, AUTHORIZATION_HEADER) == GetFirst(exchange.request.headers, AUTHORIZATION_HEADER);
    assert AuthenticationFilter.ExtractToken(reached.request) == AuthenticationFilter.ExtractToken(exchange.request);
  }

  /**
   * Without the handler in the chain, the outcome of a request that gets through
   * every filter is whatever routing makes of the exchange the last filter passed on.
   */
  lemma {:induction false} RunRoutesReached(chain: seq<GlobalFilter>, exchange: Exchange, env: Env, reached: Exchange)
    requires ExceptionHandling !in chain
    requires ExchangeAt(chain, exchange, env, |chain|) == Some(reached)
    ensures Run(chain, exchange, env) == env.route(reached)
    decreases |chain|
  {
    if |chain| > 0 {
      assert chain[0] in chain;
      assert forall k :: 0 <= k < |chain| - 1 ==> chain[1..][k] == chain[k + 1];
      RunRoutesReached(chain[1..], Enter(chain[0], exchange, env).exchange, env, reached);
    }
  }

  /** A request some filter turned away never reaches routing: the outcome ignores the router. */
  lemma {:induction false} DeniedNeverRouted(chain: seq<GlobalFilter>, exchange: Exchange, env: Env, otherRoute: Exchange -> Outcome)
    requires ExchangeAt(chain, exchange, env, |chain|).None?
    ensures Run(chain, exchange, env) == Run(chain, exchange, env.(route := otherRoute))
    decreases |chain|
  {
    var env' := env.(route := otherRoute);
    assert Enter(chain[0], exchange, env) == Enter(chain[0], exchange, env');
    match Enter(chain[0], exchange, env)
    case Done(_) =>
    case Continue(next) =>
      DeniedNeverRouted(chain[1..], next, env, otherRoute);
  }

  /** White-listed paths are never admin-only: the two pattern lists cannot both match. */
  lemma ExemptIsNotPrivileged(path: string)
    ensures !(AuthenticationFilter.IsWhiteListed(path) && AdminAuthorizationFilter.IsAdminOnlyPath(path))
  {
    AuthenticationFilter.WhiteListedIff(path);
    AdminAuthorizationFilter.AdminOnlyPathIff(path);
    if AuthenticationFilter.IsWhiteListed(path) {
      assert path[..3] == "/au";
    }
  }

  /**
   * If the admin check ran first, a client header claiming MASTER would let a
   * token without that role through; run after authentication, it would not.
   */
  lemma OrderDecidesWhichRoleIsChecked(exchange: Exchange, env: Env, info: AuthenticationFilter.UserInfo)
    requires AdminAuthorizationFilter.IsAdminOnlyPath(exchange.request.path)
    requires AdminAuthorizationFilter.HasMasterRole(exchange.request, env.roleOf)
    requires AuthenticationFilter.TokenClaims(exchange.request, env.jwt) == Some(info)
    requires info.role.None? || env.roleOf(info.role.value) != Success(AdminAuthorizationFilter.MASTER)
    ensures ExchangeAt([AdminAuthorization, Authentication], exchange, env, 2).Some?
    ensures ExchangeAt([Authentication, AdminAuthorization], exchange, env, 2).None?
  {
    ExemptIsNotPrivileged(exchange.request.path);
    var chain := [Authentication, AdminAuthorization];
    assert ExchangeAt(chain, exchange, env, 2) == ExchangeAt(chain[1..], Enter(Authentication, exchange, env).exchange, env, 1);
    if ExchangeAt(chain, exchange, env, 2).Some? {
      assert false;
    }
  }

  /**
   * A sorted chain for any undeclared rank from -1 to 2, and the only one for
   * ranks 0 and 1 (CanonicalChainUnique).
   */
  const CANONICAL_CHAIN: seq<GlobalFilter> := [ExceptionHandling, Authentication, AdminAuthorization]

  lemma CanonicalChainSorted(unorderedRank: int)
    requires ExceptionHandlingFilter.ORDER <= unorderedRank <= AdminAuthorizationFilter.ORDER
    ensures SortedByOrder(CANONICAL_CHAIN, unorderedRank)
  {
  }

  /**
   * Ranked strictly between the handler and the admin check, authentication has
   * one place only: every sorted arrangement of the three filters is the canonical one.
   */
  lemma CanonicalChainUnique(chain: seq<GlobalFilter>, unorderedRank: int)
    requires ExceptionHandlingFilter.ORDER < unorderedRank < AdminAuthorizationFilter.ORDER
    requires |chain| == 3 && forall f: GlobalFilter :: f in chain
    requires SortedByOrder(chain, unorderedRank)
    ensures chain == CANONICAL_CHAIN
  {
    assert ExceptionHandling in chain && Authentication in chain && AdminAuthorization in chain;
  }

  /**
   * At rank 2 authentication ties with the admin check, and both arrangements
   * are sorted: the admin check may then run before authentication.
   */
  lemma TieAtAdminOrder()
    ensures SortedByOrder(CANONICAL_CHAIN, AdminAuthorizationFilter.ORDER)
    ensures SortedByOrder([ExceptionHandling, AdminAuthorization, Authentication], AdminAuthorizationFilter.ORDER)
  {
  }

  /** A white-listed request reaches routing exactly as it came; errors there are still translated. */
  lemma CanonicalForwardsWhiteListed(exchange: Exchange, env: Env)
    requires AuthenticationFilter.IsWhiteListed(exchange.request.path)
    ensures Run(CANONICAL_CHAIN, exchange, env)
         == ExceptionHandlingFilter.Filter(exchange.request, env.route(exchange), env.serialise)
  {
    ExemptIsNotPrivileged(exchange.request.path);
  }

  /** A missing, blank or rejected token ends in the bare 401, with no JSON envelope. */
  lemma CanonicalRejectsBadToken(exchange: Exchange, env: Env)
    requires !AuthenticationFilter.IsWhiteListed(exchange.request.path)
    requires var token := AuthenticationFilter.ExtractToken(exchange.request);
      !AuthenticationFilter.HasText(token) || env.jwt.validate(token.value, env.jwt.now) == Success(false)
    ensures AuthenticationFilter.IsBareUnauthorized(exchange.response, Run(CANONICAL_CHAIN, exchange, env))
  {
  }

  /**
   * A validator or claim decoder that throws ends in the handler's envelope for
   * that exception: a 500 carrying the exception's own message.
   */
  lemma CanonicalTokenFailure(exchange: Exchange, env: Env, message: Option<string>)
    requires !AuthenticationFilter.IsWhiteListed(exchange.request.path)
    requires var token := AuthenticationFilter.ExtractToken(exchange.request);
      && AuthenticationFilter.HasText(token)
      && (|| env.jwt.validate(token.value, env.jwt.now) == Failure(message)
          || (env.jwt.validate(token.value, env.jwt.now) == Success(true)
              && env.jwt.userInfo(token.value) == Failure(message)))
    ensures Run(CANONICAL_CHAIN, exchange, env)
         == ExceptionHandlingFilter.HandlingError(exchange.request, exchange.response, Unclassified(message), env.serialise)
    ensures !exchange.response.committed ==>
      Run(CANONICAL_CHAIN, exchange, env).response.status == Some(HttpStatus.INTERNAL_SERVER_ERROR)
  {
  }

  /** A valid token without the MASTER role on an admin path gets the 403 envelope. */
  lemma CanonicalForbidsNonMaster(exchange: Exchange, env: Env, info: AuthenticationFilter.UserInfo)
    requires AdminAuthorizationFilter.IsAdminOnlyPath(exchange.request.path)
    requires AuthenticationFilter.TokenClaims(exchange.request, env.jwt) == Some(info)
    requires info.role.None? ||
             (env.roleOf(info.role.value).Success? && env.roleOf(info.role.value).value != AdminAuthorizationFilter.MASTER)
    ensures Run(CANONICAL_CHAIN, exchange, env)
         == ExceptionHandlingFilter.HandlingError(
              exchange.request, exchange.response,
              Gateway(NewGatewayException(GatewayExceptionType.FORBIDDEN)), env.serialise)
  {
    ExemptIsNotPrivileged(exchange.request.path);
    var forwarded := AuthenticationFilter.Filter(exchange, env.jwt).exchange;
    assert GetFirst(forwarded.request.headers, USER_ROLE_HEADER) == info.role;
  }

  /**
   * A valid token on a path it may use is routed with the identity headers set
   * from its claims.
   */
  lemma CanonicalForwardsAuthenticated(exchange: Exchange, env: Env, info: AuthenticationFilter.UserInfo)
    requires !AuthenticationFilter.IsWhiteListed(exchange.request.path)
    requires AuthenticationFilter.TokenClaims(exchange.request, env.jwt) == Some(info)
    requires AdminAuthorizationFilter.IsAdminOnlyPath(exchange.request.path) ==>
               info.role.Some? && env.roleOf(info.role.value) == Success(AdminAuthorizationFilter.MASTER)
    ensures var routed := exchange.(request := AuthenticationFilter.WithIdentity(exchange.request, info));
      Run(CANONICAL_CHAIN, exchange, env)
      == ExceptionHandlingFilter.Filter(exchange.request, env.route(routed), env.serialise)
  {
    var forwarded := AuthenticationFilter.Filter(exchange, env.jwt).exchange;
    assert GetFirst(forwarded.request.headers, USER_ROLE_HEADER) == info.role;
  }
}

=== FILE: filter_outcome.dfy ===
/** How a global filter ends: the shape of its returned Mono<Void>. */
module FilterOutcome {
  import Http
  import GatewayExceptions

  /** The terminal signal of the Mono: completion or an error. */
  datatype Signal = Completed | Errored(error: GatewayExceptions.Throwable)

  /** The terminal signal together with the state the shared response was left in. */
  datatype Outcome = Outcome(signal: Signal, response: Http.Response)

  /**
   * A filter either calls chain.filter with a (possibly mutated) exchange, or
   * ends the chain itself.
   */
  datatype Decision = Continue(exchange: Http.Exchange) | Done(outcome: Outcome)
}

=== FILE: gateway_exception.dfy ===
/**
 * The gateway's error kinds, the exception that carries one, the other
 * throwables a filter chain can fail with, and the JSON error envelope.
 */
module GatewayExceptions {
  import opened Wrappers
  import Http
  import HttpStatus

  /** GatewayExceptionType: each kind fixes an HTTP status and a message. */
  datatype GatewayExceptionType = INVALID_ACCESS_TOKEN | FORBIDDEN | USER_SERVICE_UNAVAILABLE
  {
    function Status(): Http.StatusCode
    {
      match this
      case INVALID_ACCESS_TOKEN => HttpStatus.UNAUTHORIZED
      case FORBIDDEN => HttpStatus.FORBIDDEN
      case USER_SERVICE_UNAVAILABLE => HttpStatus.SERVICE_UNAVAILABLE
    }

    function Message(): string
    {
      match this
      case INVALID_ACCESS_TOKEN => "유효하지 않은 액세스 토큰입니다."
      case FORBIDDEN => "요청에 대한 권한이 부족합니다."
      case USER_SERVICE_UNAVAILABLE => "유저 서비스가 동작하지 않습니다."
    }
  }

  const ALL_TYPES: set<GatewayExceptionType> := {INVALID_ACCESS_TOKEN, FORBIDDEN, USER_SERVICE_UNAVAILABLE}

  /** The enumeration has exactly three constants. */
  lemma ExactlyThreeTypes(kind: GatewayExceptionType)
    ensures kind in ALL_TYPES
    ensures |ALL_TYPES| == 3
  {
  }

  /** The inverse of Status: which kind, if any, answers with this status. */
  function TypeOfStatus(status: int): (kind: Option<GatewayExceptionType>)
    ensures kind.Some? ==> kind.value.Status() == status
    ensures kind.None? ==> forall k: GatewayExceptionType :: k.Status() != status
  {
    if status == 401 then Some(INVALID_ACCESS_TOKEN)
    else if status == 403 then Some(FORBIDDEN)
    else if status == 503 then Some(USER_SERVICE_UNAVAILABLE)
    else None
  }

  /** The three statuses are pairwise distinct, so a status names at most one kind. */
  lemma StatusDeterminesType(kind: GatewayExceptionType, status: int)
    ensures TypeOfStatus(status) == Some(kind) <==> kind.Status() == status
  {
  }

  /**
   * GatewayException: `status` and `message` are the fields read through the
   * generated getters; `detailMessage` is the message handed to the
   * RuntimeException superclass.
   */
  datatype GatewayException = GatewayException(status: Http.StatusCode, message: string, detailMessage: string)

  /** The one constructor: everything is copied from the kind. */
  function NewGatewayException(kind: GatewayExceptionType): (e: GatewayException)
    ensures TypeOfStatus(e.status) == Some(kind)
    ensures e.message == kind.Message()
    ensures e.detailMessage == e.message
  {
    GatewayException(kind.Status(), kind.Message(), kind.Message())
  }

  /** Every constructed exception answers with 401, 403 or 503. */
  lemma ConstructedStatuses(kind: GatewayExceptionType)
    ensures NewGatewayException(kind).status in {401, 403, 503}
  {
  }

  /**
   * What a filter chain can fail with: a GatewayException, or any other throwable,
   * of which only the (possibly null) message matters here.
   */
  datatype Throwable = Gateway(exception: GatewayException) | Unclassified(message: Option<string>)
  {
    /** Throwable.getMessage, as overridden by GatewayException's getter. */
    function GetMessage(): Option<string>
    {
      match this
      case Gateway(e) => Some(e.message)
      case Unclassified(m) => m
    }
  }

  /**
   * ExceptionResponseDto, the JSON error envelope; `httpMethod` is the field
   * serialised as "method".
   */
  datatype ExceptionResponseDto = ExceptionResponseDto(
    status: Http.StatusCode,
    message: Option<string>,
    httpMethod: string,
    requestPath: string)
}

=== FILE: header_constraints.dfy ===
/** Header names and the bearer prefix shared by the filters. */
module HeaderConstraints {
  import Http

  const AUTHORIZATION_HEADER: string := "Authorization"
  const BEARER_PREFIX: string := "Bearer "

  const USER_ID_HEADER: string := "X-User-Id"
  const USER_ROLE_HEADER: string := "X-User-Role"

  const RESPONSE_CONTENT_TYPE: string := "Content-Type"

  /** No two of the names denote the same header, even compared case-insensitively. */
  lemma NamesAreDistinct()
    ensures Http.Fold(AUTHORIZATION_HEADER) != Http.Fold(USER_ID_HEADER)
    ensures Http.Fold(AUTHORIZATION_HEADER) != Http.Fold(USER_ROLE_HEADER)
    ensures Http.Fold(USER_ID_HEADER) != Http.Fold(USER_ROLE_HEADER)
    ensures Http.Fold(RESPONSE_CONTENT_TYPE) != Http.Fold(AUTHORIZATION_HEADER)
    ensures Http.Fold(RESPONSE_CONTENT_TYPE) != Http.Fold(USER_ID_HEADER)
    ensures Http.Fold(RESPONSE_CONTENT_TYPE) != Http.Fold(USER_ROLE_HEADER)
  {
  }
}

=== FILE: http.dfy ===
/**
 * The parts of Spring's reactive HTTP types the gateway filters touch:
 * case-insensitive multi-valued headers, the request, the shared response
 * and the exchange that pairs them.
 */
module Http {
  import opened Wrappers

  /** A status code as Spring's HttpStatusCode accepts it: three decimal digits. */
  type StatusCode = c: int | 100 <= c <= 999 witness 200

  /** ASCII lower-casing: header names are compared after this folding. */
  function LowerChar(c: char): char
  {
    if 'A' <= c <= 'Z' then (c as int + 32) as char else c
  }

  function Fold(name: string): (folded: string)
    ensures |folded| == |name|
    ensures forall i :: 0 <= i < |name| ==> folded[i] == LowerChar(name[i])
  {
    seq(|name|, i requires 0 <= i < |name| => LowerChar(name[i]))
  }

  /** Folding a folded name changes nothing. */
  lemma FoldIdempotent(name: string)
    ensures Fold(Fold(name)) == Fold(name)
  {
  }

  /** Every key is a folded name, so Values can reach every entry. */
  predicate WellFormedHeaders(headers: map<string, seq<Option<string>>>)
  {
    forall key :: key in headers ==> Fold(key) == key
  }

  /**
   * Headers: each folded name maps to its values in arrival order. A value is
   * None where Java holds a null String.
   */
  type Headers = h: map<string, seq<Option<string>>> | WellFormedHeaders(h) witness map[]

  /** Every value of a header, looked up case-insensitively; [] when absent. */
  function Values(headers: Headers, name: string): seq<Option<string>>
  {
    if Fold(name) in headers then headers[Fold(name)] else []
  }

  /** HttpHeaders.getFirst: the first value, None when there is none or it is null. */
  function GetFirst(headers: Headers, name: string): (first: Option<string>)
    ensures first.Some? <==> |Values(headers, name)| > 0 && Values(headers, name)[0].Some?
    ensures first.Some? ==> Values(headers, name)[0] == first
  {
    var values := Values(headers, name);
    if |values| > 0 then values[0] else None
  }

  /** HttpHeaders.set: the header's values become exactly [value]; no other header changes. */
  function SetHeader(headers: Headers, name: string, value: Option<string>): (updated: Headers)
    ensures Values(updated, name) == [value]
    ensures forall other :: Fold(other) != Fold(name) ==> Values(updated, other) == Values(headers, other)
    ensures updated.Keys == headers.Keys + {Fold(name)}
  {
    FoldIdempotent(name);
    headers[Fold(name) := [value]]
  }

  /** HttpHeaders.add: value is appended after the existing ones; no other header changes. */
  function AddHeader(headers: Headers, name: string, value: Option<string>): (updated: Headers)
    ensures Values(updated, name) == Values(headers, name) + [value]
    ensures forall other :: Fold(other) != Fold(name) ==> Values(updated, other) == Values(headers, other)
    ensures updated.Keys == headers.Keys + {Fold(name)}
  {
    FoldIdempotent(name);
    headers[Fold(name) := Values(headers, name) + [value]]
  }

  /** An inbound request: method name (`httpMethod`, as `method` is a Dafny keyword), raw path (no query) and headers. */
  datatype Request = Request(httpMethod: string, path: string, headers: Headers)

  /**
   * The response every filter of one exchange shares. `body` is what was
   * written; once `committed` the status and headers can no longer change.
   */
  datatype Response = Response(status: Option<StatusCode>, headers: Headers, body: Option<string>, committed: bool)

  /** ServerWebExchange: a request (replaced by `mutate`) and its shared response. */
  datatype Exchange = Exchange(request: Request, response: Response)

  /** ServerHttpResponse.setStatusCode: ignored once the response is committed. */
  function SetStatusCode(response: Response, status: StatusCode): (updated: Response)
    ensures updated.status == (if response.committed then response.status else Some(status))
    ensures updated.headers == response.headers && updated.body == response.body
    ensures updated.committed == response.committed
  {
    if response.committed then response else response.(status := Some(status))
  }

  /** ServerHttpResponse.setComplete: commit the response without writing a body. */
  function SetComplete(response: Response): (updated: Response)
    ensures updated.committed
    ensures updated.status == response.status && updated.headers == response.headers
    ensures updated.body == response.body
  {
    response.(committed := true)
  }
}

/** The HttpStatus constants the gateway uses. */
module HttpStatus {
  import Http

  const UNAUTHORIZED: Http.StatusCode := 401
  const FORBIDDEN: Http.StatusCode := 403
  const INTERNAL_SERVER_ERROR: Http.StatusCode := 500
  const SERVICE_UNAVAILABLE: Http.StatusCode := 503
}

=== FILE: path_pattern.dfy ===
/**
 * Spring PathPattern matching, restricted to the one form the gateway
 * configures: literal segments followed by a trailing "**" segment.
 */
module PathPattern {

  /** The pattern "/s1/.../sn" followed by a "**" segment; the segments are the literal parts in order. */
  datatype RestPattern = RestPattern(segments: seq<string>)

  /** A literal pattern segment: non-empty and free of separators. */
  predicate IsLiteralSegment(s: string)
  {
    |s| > 0 && forall i :: 0 <= i < |s| ==> s[i] != '/'
  }

  predicate WellFormed(p: RestPattern)
  {
    forall i :: 0 <= i < |p.segments| ==> IsLiteralSegment(p.segments[i])
  }

  /** Length of the path segment at the front of s: everything before the next '/'. */
  function SegmentLength(s: string): (n: nat)
    ensures n <= |s|
    ensures forall i :: 0 <= i < n ==> s[i] != '/'
    ensures n < |s| ==> s[n] == '/'
  {
    if |s| == 0 || s[0] == '/' then 0 else 1 + SegmentLength(s[1..])
  }

  /**
   * Element-by-element matching as PathPattern does it: each literal consumes a
   * separator and one whole path segment; the trailing "**" segment then matches
   * the end of the path or anything that starts with a separator.
   */
  function MatchElements(segments: seq<string>, path: string): bool
    decreases |segments|
  {
    if |segments| == 0 then
      |path| == 0 || path[0] == '/'
    else
      && |path| > 0
      && path[0] == '/'
      && var rest := path[1..];
         var n := SegmentLength(rest);
         && rest[..n] == segments[0]
         && MatchElements(segments[1..], rest[n..])
  }

  function Matches(p: RestPattern, path: string): bool
  {
    MatchElements(p.segments, path)
  }

  /** The literal part "/s1/.../sn" of a pattern. */
  function Literal(segments: seq<string>): string
  {
    if |segments| == 0 then "" else "/" + segments[0] + Literal(segments[1..])
  }

  /** List.stream().anyMatch(p -> p.matches(path)). */
  function AnyMatch(patterns: seq<RestPattern>, path: string): (found: bool)
    ensures found <==> exists i :: 0 <= i < |patterns| && Matches(patterns[i], path)
  {
    if |patterns| == 0 then false
    else Matches(patterns[0], path) || AnyMatch(patterns[1..], path)
  }

  lemma {:induction false} SegmentLengthAt(s: string, k: nat)
    requires k <= |s|
    requires forall i :: 0 <= i < k ==> s[i] != '/'
    requires k == |s| || s[k] == '/'
    ensures SegmentLength(s) == k
    decreases k
  {
    if k > 0 {
      SegmentLengthAt(s[1..], k - 1);
    }
  }

  lemma LiteralShape(segments: seq<string>)
    ensures |Literal(segments)| == 0 || Literal(segments)[0] == '/'
  {
  }

  lemma MatchStep(segments: seq<string>, path: string) returns (after: string)
    requires |segments| > 0 && MatchElements(segments, path)
    ensures path == "/" + segments[0] + after
    ensures MatchElements(segments[1..], after)
  {
    var rest := path[1..];
    var n := SegmentLength(rest);
    after := rest[n..];
    assert rest == rest[..n] + after;
  }

  lemma PrependKeepsPrefix(head: string, after: string, lit: string)
    requires after == lit || lit + "/" <= after
    ensures head + after == head + lit || head + lit + "/" <= head + after
  {
    if after != lit {
      assert after == (lit + "/") + after[|lit| + 1..];
      assert head + after == (head + lit + "/") + after[|lit| + 1..];
    }
  }

  lemma {:induction false} MatchImpliesPrefix(segments: seq<string>, path: string)
    requires MatchElements(segments, path)
    ensures path == Literal(segments) || Literal(segments) + "/" <= path
    decreases |segments|
  {
    if |segments| > 0 {
      var after := MatchStep(segments, path);
      MatchImpliesPrefix(segments[1..], after);
      PrependKeepsPrefix("/" + segments[0], after, Literal(segments[1..]));
    }
  }

  lemma {:induction false} PrefixImpliesMatch(segments: seq<string>, path: string)
    requires forall i :: 0 <= i < |segments| ==> IsLiteralSegment(segments[i])
    requires path == Literal(segments) || Literal(segments) + "/" <= path
    ensures MatchElements(segments, path)
    decreases |segments|
  {
    var lit := Literal(segments);
    LiteralShape(segments);
    if |segments| == 0 {
      assert |path| == 0 || path[0] == '/';
    } else {
      var s := segments[0];
      var tail := segments[1..];
      var tailLit := Literal(tail);
      assert lit == "/" + s + tailLit;
      assert IsLiteralSegment(s);
      assert |path| >= 1 + |s| + |tailLit|;
      var rest := path[1..];
      var after := rest[|s|..];
      assert rest[..|s|] == s;
      assert after == tailLit || tailLit + "/" <= after;
      LiteralShape(tail);
      assert |after| == 0 || after[0] == '/';
      SegmentLengthAt(rest, |s|);
      assert forall i :: 0 <= i < |tail| ==> IsLiteralSegment(tail[i]) by {
        forall i | 0 <= i < |tail| ensures IsLiteralSegment(tail[i]) {
          assert tail[i] == segments[i + 1];
        }
      }
      PrefixImpliesMatch(tail, after);
    }
  }

  /**
   * The element-wise matcher agrees with the plain reading of "/lits" followed by
   * a "**" segment: the path is the literal part itself, or the literal part
   * followed by a separator and anything at all.
   */
  lemma MatchElementsIsSegmentPrefix(segments: seq<string>, path: string)
    requires forall i :: 0 <= i < |segments| ==> IsLiteralSegment(segments[i])
    ensures MatchElements(segments, path) <==> (path == Literal(segments) || Literal(segments) + "/" <= path)
  {
    if MatchElements(segments, path) {
      MatchImpliesPrefix(segments, path);
    }
    if path == Literal(segments) || Literal(segments) + "/" <= path {
      PrefixImpliesMatch(segments, path);
    }
  }

  /** A well-formed pattern matches exactly the path "/lits" and the paths below it. */
  lemma MatchesIsSegmentPrefix(p: RestPattern, path: string)
    requires WellFormed(p)
    ensures Matches(p, path) <==> (path == Literal(p.segments) || Literal(p.segments) + "/" <= path)
  {
    MatchElementsIsSegmentPrefix(p.segments, path);
  }

  /** Matching one single-segment pattern: "/seg" followed by a "**" segment. */
  lemma SingleSegment(seg: string, path: string)
    requires IsLiteralSegment(seg)
    ensures Matches(RestPattern([seg]), path) <==> (path == "/" + seg || "/" + seg + "/" <= path)
  {
    assert Literal([seg]) == "/" + seg + Literal([]);
    MatchesIsSegmentPrefix(RestPattern([seg]), path);
  }
}

=== FILE: wrappers.dfy ===
/** Option and Result, the two failure-carrying shapes the model needs. */
module Wrappers {

  /** A value that may be missing; None stands for Java's null. */
  datatype Option<+T> = None | Some(value: T)

  /** Either a value or the error that replaced it (a thrown exception). */
  datatype Result<+T, +E> = Success(value: T) | Failure(error: E)
}
